=== FILE: README.md ===
# DeansList truncate-and-reload, modelled in Dafny

This project models the reconciliation engine of the DeansList connector:
the `School` class that, for one school identified by its API key, empties
the warehouse rows it owns in one entity table and reloads them from the
records the DeansList API returned. Tables are immutable sequences of rows
(maps from column name to value), a `DELETE ... WHERE` is an
order-preserving filter with a named predicate, an insert is an append,
and the fetched JSON `data` list is a sequence of records.

Three delete scopes are modelled:

- **Whole school**: every entity except Behaviors loses the rows whose
  `SchoolAPIKey` is this school's key.
- **Windowed**: Behaviors loses only this school's rows whose `BehaviorDate`
  lies in `[start_date, end_date]`, both ends included.
- **Nested**: Actions and Penalties, which carry no school column, lose the
  rows whose link column equals the `IncidentID` of an Incidents row with
  this school's key. The source computes these ids with a `LEFT JOIN`
  filtered on the joined table's key. That filter turns it into an inner
  join, so a nested row whose link matches no Incidents row is never
  deleted. The model keeps that behaviour and proves its consequences.

Three consequences of how `school.py` is written, which the model keeps
and proves:

- **Stale children.** Nothing in `school.py` removes the children of an
  incident that an Incidents reload dropped. The join at `school.py:76-81`
  reaches only incidents still stored with this school's key, so those
  Actions and Penalties rows stay behind
  (`Properties.StaleChildrenSurviveIncidentReload`).
- **Orphans.** Nested rows linked to no incident at all are never removed
  (`Properties.NestedDeleteKeepsOrphans`), and each rerun stores them again
  (`Properties.NestedRefreshTwiceIsOnceIffLinked`).
- **Missing nested field.** `record[column]` at `school.py:93` raises
  `KeyError` when the field is absent. A record without it is therefore an
  error, not an empty contribution. The model reports it as `MissingField`.

Files (one module each):

- `results.dfy`: `Option` and `Result`.
- `values.dfy`: cell values, rows, tables, NULL-reading `Get`, Python truthiness, text order, the `.`→`_` rename.
- `seqs.dfy`: `Filter` and its algebra (append, composition, congruence, idempotence).
- `frames.dfy`: row preparation (`_parse_json_data`) and nested extraction (`_parse_nested_json_data`).
- `scopes.dfy`: the school context, request parameters, and the three delete scopes.
- `refresh.dfy`: the counter, the insert, `refresh_data` and `refresh_nested_table_data`.
- `properties.dfy`: isolation, window preservation, nested-delete scope, idempotence.

Collaborators that are not code in `school.py` are handled as follows:

- Python's `str`, which `astype(str)` applies to Actions and Penalties, is the parameter `render`. The NaN pandas puts in a cell whose key is absent is stringified as the fixed text `nan`.
- The warehouse is the table values passed in and returned.
- The API fetch is reduced to the parameters it would be sent.
- The counter is a map threaded through the calls.

## Model

| member | source | states |
|---|---|---|
| `Scopes.RequestParams` | school.py:19-27 | The request carries `sdt`/`edt` exactly when the endpoint is `get-behavior-data`, and they are the school's start and end dates. Every other endpoint gets no parameters. |
| `Scopes.DeleteCurrentRecords` | school.py:29-40 | For every entity but Behaviors, each row's surviving count is 0 if it carries this school's key and unchanged otherwise. For Behaviors, it is 0 only if the row is also dated inside the inclusive window. |
| `Scopes.LinkedIds` | school.py:76-83 | The ids the join query selects are exactly the link values of nested rows that equal the IncidentID of one of this school's Incidents rows, with no repeats. |
| `Scopes.DeleteEachFilters` | school.py:84-87 | Running one delete per selected id removes exactly the rows whose link value is among the ids, keeping the rest in order. |
| `Scopes.DeleteCurrentNestedRecords` | school.py:73-87 | The select-then-delete loop equals a join filter: a nested row is removed iff its link is non-NULL and matches an IncidentID of one of this school's Incidents rows. Every other row keeps its multiplicity. |
| `Frames.Cell` | school.py:44-47 | The value of a renamed column is the record's value under the key renamed to it, or NULL (pandas' NaN) when the record has no such key. |
| `Values.FlatName` | school.py:46 | Every `.` of a flattened key becomes `_`, and every other character stays in place. |
| `Frames.CellText` | school.py:50-51 | `astype(str)` of a column: the rendering of the record's value, a JSON null included, or `nan` when the record has no key for the column. |
| `Frames.PrepareRow` | school.py:46-51 | A prepared row has exactly the requested columns plus `SchoolAPIKey`, which holds this school's key. Other columns hold the record's values. Actions and Penalties become text when both are selected: `nan` for a missing key, the rendering of the value otherwise. |
| `Frames.NullAndAbsentStoreApart` | school.py:44-51 | An `Actions` value that is JSON null and an absent `Actions` key store different text, the rendering of NULL and `nan`, so the two rows differ whenever `str(None)` is not `nan`. This holds when some record's value in that column is a list. |
| `Frames.ParseJsonData` | school.py:42-52 | An empty payload gives no rows and no error. Otherwise it fails iff some requested column is missing from every record (KeyError, naming all the missing columns) or is ambiguous after renaming. When no column is missing, the error names all the ambiguous columns. On success there is one row per record, in payload order, each stamped with the key. |
| `Frames.NestedOf` | school.py:89-96 | Extraction succeeds iff every record has the field holding a falsy value or a list. A failure is the error of the first bad record. Every extracted row is an element of some record's list. No key is stamped. |
| `Frames.Contribution` | school.py:93-94 | One record's part of the nested rows. A missing field is `MissingField` (the `KeyError`). A falsy value contributes nothing. A truthy list contributes its elements, in order. Any other truthy value is `NotAList`. |
| `Frames.NestedOfAppend` | school.py:92-94 | The nested rows of a concatenated payload are those of the first part followed by those of the second, with the first error winning. This is record order, then element order. |
| `Frames.NestedOfSingle` | school.py:93-94 | A one-record payload contributes exactly that record's list, and nothing when the value is falsy. |
| `Frames.ExtractNested` | school.py:89-96 | The loop that extends the result record by record computes exactly the nested rows (or error) of the whole payload. |
| `Refresh.CounterUpdate` | school.py:71 | The entity's entry grows by the count, and is created even for 0. Every other entry is unchanged. |
| `Refresh.InsertRows` | school.py:54-64 | The table after insert is the old table followed by the rows. The reported count is the number of rows appended. |
| `Refresh.RefreshData` | school.py:66-71 | The delete always happens first. If the payload cannot be prepared, the scope stays emptied and the counter unchanged. Otherwise the table is the survivors followed by exactly the prepared payload rows, which all carry the key, and the counter grows by the record count whatever was deleted. An empty payload never fails. |
| `Refresh.RefreshNestedTableData` | school.py:98-106 | The nested delete runs first. Extraction fails iff some record's field is missing, or is truthy and not a list. On success the table is the survivors followed by exactly the extracted rows, in payload order. On success the counter grows by exactly the number of rows appended. An empty payload adds 0. |
| `Properties.EmptyPayloadEmptiesScope` | school.py:45-52 | Refreshing with `{data: []}` succeeds, leaves exactly the post-delete table, and records a count of 0 for the entity. This holds for both refresh kinds. |
| `Properties.RefreshIsolatesOtherSchools` | school.py:29-40 | For any entity, and whether or not preparation fails, another school's rows are exactly as before, in order, after this school's refresh. |
| `Properties.WindowedDeleteKeepsHistory` | school.py:34-39 | The Behaviors delete keeps, in order, this school's rows dated outside the window and another school's rows. It keeps none of this school's in-window rows. |
| `Properties.WindowIsInclusive` | school.py:37-38 | A row of this school dated exactly on the start date or the end date is deleted. |
| `Properties.ReloadReplacesSchoolRows` | school.py:66-70 | After a successful whole-school refresh, this school's rows are exactly the prepared payload, in order. All other rows are unchanged. |
| `Properties.ReloadTwiceIff` | school.py:66-70 | Delete-then-append with the same rows twice equals once iff the delete scope covers every appended row. |
| `Properties.RefreshTwiceIsRefreshOnce` | school.py:66-71 | For non-windowed entities a second refresh with the same payload leaves the same table and outcome. The counter then holds twice the record count. |
| `Properties.WindowedRefreshTwiceIsOnceIffInWindow` | school.py:34-39 | A repeated Behaviors refresh changes nothing iff every prepared row is dated inside the window. A row dated outside is stored again on each rerun. |
| `Properties.NestedDeleteKeepsOrphans` | school.py:76-81 | Nested rows whose link matches no Incidents row at all survive the nested delete, in order. |
| `Properties.NestedDeleteKeepsOtherSchoolsChildren` | school.py:76-87 | Nested rows linked to another school's incidents survive, in order, provided no incident of this school shares their IncidentID. |
| `Properties.NestedRowsOfOwnIncidentsAreFresh` | school.py:98-106 | After a nested refresh, the rows linked to this school's current incidents are exactly the freshly extracted rows so linked, in payload order. |
| `Properties.NestedRefreshTwiceIsOnceIffLinked` | school.py:98-106 | A repeated nested refresh changes nothing iff every extracted row links to one of this school's incidents. Otherwise the unlinked rows accumulate. |
| `Properties.StaleChildrenSurviveIncidentReload` | school.py:76-81 | Reload Incidents first, then run the nested delete against the reloaded table. A nested row linked to an incident the new payload no longer carries is still present. |

## Left out

- The HTTP fetch itself (`API(version, key).get(...)`). Only the choice of request parameters is modelled. `api.py` is not part of this model: its signature does not match the call in `school.py`.
- SQL execution and the raw query strings. Their effect on the in-memory tables is modelled. String interpolation of the API key into the join query, and the quoting issues that come with it, are not.
- Logging (`logging.info`), `main.py` (command-line parsing and printing) and `mailer.py` (SMTP notification). None of them takes part in deciding what is deleted or inserted.
- The ordering of Incidents before Actions/Penalties is not enforced in `school.py`. `Properties.StaleChildrenSurviveIncidentReload` and `Properties.NestedRowsOfOwnIncidentsAreFresh` take the Incidents table as a parameter, and that is where the ordering shows up.
- pandas `json_normalize` is treated as the identity on records that are already flat. Type coercions pandas applies to columns (ints to floats next to NaN, and so on) are not modelled. In particular, a JSON null in an Actions or Penalties column that holds no list in any record becomes NaN too, and is stored as `nan`. `Frames.CellText` and `Frames.NullAndAbsentStoreApart` describe the column that holds a list somewhere.
- The payload is the `data` list itself. A JSON object without a `data` key, which would raise `KeyError`, is not modelled.
- Warehouse errors (an unknown column, a failing connection) are not modelled: inserts always succeed.
- `Frames.ParseJsonData`: when two distinct payload keys are renamed to the same requested column (for example `a.b` and `a_b`), pandas produces a duplicated column. The model reports this as `AmbiguousColumns` and does not reproduce the duplicated frame.
- `Frames.PrepareRow`: a column requested twice yields one column, not pandas' duplicated one.
- JSON floats and lists of scalars have no `Value`. A payload holding them (a float column, a nested field such as `[1, 2]`) cannot be written down in the model.
- `Frames.Contribution` / `Frames.NestedOf`: a truthy value that is not a list of records is reported as `NotAList`. In the source an int or bool raises `TypeError`. A non-empty string is split into characters, and the insert then fails.
- `Scopes.DeleteCurrentRecords`: `BehaviorDate` is compared with the window bounds as text, in lexicographic order. This matches chronological order for ISO `YYYY-MM-DD` dates. A database that converts the column to a date type, or compares under a collation, is not modelled. A NULL or non-text date lies in no window.
- The counter's concrete type is not shown in the source. Additive `collections.Counter.update` semantics are assumed.
- Counts are unbounded integers; no width is involved.

=== FILE: frames.dfy ===
/** Turning a fetched payload into table rows: the flat rows of an entity
    (`_parse_json_data`) and the rows embedded in a list-valued field of
    every Incidents record (`_parse_nested_json_data`). */
module Frames {
  import opened Results
  import opened Values

  /** Why a payload cannot be turned into rows. */
  datatype DataError =
    /** requested columns that no record of a non-empty payload has (pandas' `KeyError`) */
    | MissingColumns(columns: set<string>)
    /** requested columns that two distinct payload keys are both renamed to */
    | AmbiguousColumns(columns: set<string>)
    /** a record lacks the field that holds its nested rows (`KeyError`) */
    | MissingField(field: string)
    /** the nested field holds a truthy value that is not a list of records */
    | NotAList(field: string)

  const KeyColumn := "SchoolAPIKey"
  const ActionsColumn := "Actions"
  const PenaltiesColumn := "Penalties"

  /** Some key of some record is renamed to `c`: `c` is a column of the
      normalised frame. */
  predicate Present(data: seq<Record>, c: string) {
    exists i, k :: 0 <= i < |data| && k in data[i] && FlatName(k) == c
  }

  /** Two distinct keys of the payload are both renamed to `c`. */
  predicate Ambiguous(data: seq<Record>, c: string) {
    exists i, j, k1, k2 ::
      0 <= i < |data| && 0 <= j < |data| && k1 in data[i] && k2 in data[j]
      && k1 != k2 && FlatName(k1) == c && FlatName(k2) == c
  }

  /** At most one key of `rec` is renamed to `c`. */
  predicate SingleSource(rec: Record, c: string) {
    forall k1, k2 :: k1 in rec && k2 in rec && FlatName(k1) == c && FlatName(k2) == c ==> k1 == k2
  }

  /** Every requested column of every record has at most one source key. */
  predicate Unambiguous(data: seq<Record>, columns: seq<string>) {
    forall i, c :: 0 <= i < |data| && c in columns ==> SingleSource(data[i], c)
  }

  /** `astype(str)` applies to Actions and Penalties only when both are
      among the selected columns (in the source, only for Incidents). */
  predicate Stringified(columns: seq<string>) {
    ActionsColumn in columns && PenaltiesColumn in columns
  }

  /** The value a record holds in the renamed column `c`; NaN (here NULL)
      when no key of the record is renamed to `c`. */
  function Cell(rec: Record, c: string): (v: Value)
    requires SingleSource(rec, c)
    ensures forall k :: k in rec && FlatName(k) == c ==> v == rec[k]
    ensures (forall k :: k in rec ==> FlatName(k) != c) ==> v == Null
  {
    if exists k :: k in rec && FlatName(k) == c then
      var k :| k in rec && FlatName(k) == c; rec[k]
    else Null
  }

  /** The text `astype(str)` stores for NaN. */
  const NanText := "nan"

  /** The text `astype(str)` makes of a renamed column: the rendering of
      the record's value, which for a JSON null is the rendering of NULL
      (Python's `None`), or `nan` when the record has no key renamed to
      `c` and pandas filled the cell with NaN. */
  function CellText(rec: Record, c: string, render: Value -> string): (t: string)
    requires SingleSource(rec, c)
    ensures forall k :: k in rec && FlatName(k) == c ==> t == render(rec[k])
    ensures (forall k :: k in rec ==> FlatName(k) != c) ==> t == NanText
  {
    if exists k :: k in rec && FlatName(k) == c then render(Cell(rec, c)) else NanText
  }

  /** One output row: the requested columns of `rec`, stamped with the
      school's key, with Actions/Penalties rendered as text when both are
      selected. `render` stands for Python's `str`. */
  function PrepareRow(key: string, rec: Record, columns: seq<string>, render: Value -> string): (row: Row)
    requires forall c :: c in columns ==> SingleSource(rec, c)
    ensures row.Keys == (set c | c in columns) + {KeyColumn}
    ensures row[KeyColumn] == Str(key)
    ensures forall c :: c in columns && c != KeyColumn && !(Stringified(columns) && (c == ActionsColumn || c == PenaltiesColumn))
                        ==> row[c] == Cell(rec, c)
    ensures Stringified(columns) ==>
              && row[ActionsColumn] == Str(CellText(rec, ActionsColumn, render))
              && row[PenaltiesColumn] == Str(CellText(rec, PenaltiesColumn, render))
  {
    var picked := map c | c in columns :: Cell(rec, c);
    var stamped := picked[KeyColumn := Str(key)];
    if Stringified(columns) then
      stamped[ActionsColumn := Str(CellText(rec, ActionsColumn, render))]
             [PenaltiesColumn := Str(CellText(rec, PenaltiesColumn, render))]
    else stamped
  }

  /** An Incidents record whose `Actions` is JSON null and one without an
      `Actions` key store different text whenever `str(None)` is not `nan`. */
  lemma NullAndAbsentStoreApart(key: string, render: Value -> string)
    requires render(Null) != NanText
    ensures var columns := [ActionsColumn, PenaltiesColumn];
            var withNull := map[ActionsColumn := Null, PenaltiesColumn := Items([])];
            var without := map[PenaltiesColumn := Items([])];
            PrepareRow(key, withNull, columns, render)[ActionsColumn] == Str(render(Null))
            && PrepareRow(key, without, columns, render)[ActionsColumn] == Str(NanText)
            && PrepareRow(key, withNull, columns, render) != PrepareRow(key, without, columns, render)
  {
    var withNull := map[ActionsColumn := Null, PenaltiesColumn := Items([])];
    var without := map[PenaltiesColumn := Items([])];
    assert FlatName(ActionsColumn) == ActionsColumn;
    assert FlatName(PenaltiesColumn) == PenaltiesColumn;
    assert FlatName(PenaltiesColumn) != ActionsColumn;
  }

  /** The requested columns no record has. */
  function MissingOf(data: seq<Record>, columns: seq<string>): (m: set<string>)
    ensures forall c :: c in m <==> c in columns && !Present(data, c)
  {
    set c | c in columns && !Present(data, c)
  }

  /** The requested columns two distinct payload keys are renamed to. */
  function AmbiguousOf(data: seq<Record>, columns: seq<string>): (m: set<string>)
    ensures forall c :: c in m <==> c in columns && Ambiguous(data, c)
  {
    set c | c in columns && Ambiguous(data, c)
  }

  lemma UnambiguousWhenNoCollision(data: seq<Record>, columns: seq<string>)
    requires AmbiguousOf(data, columns) == {}
    ensures Unambiguous(data, columns)
  {
    forall i, c | 0 <= i < |data| && c in columns
      ensures SingleSource(data[i], c)
    {
      assert c !in AmbiguousOf(data, columns);
    }
  }

  /** Every record prepared as a row, in payload order. */
  function PrepareAll(key: string, data: seq<Record>, columns: seq<string>, render: Value -> string): (t: Table)
    requires Unambiguous(data, columns)
    ensures |t| == |data|
    ensures forall i :: 0 <= i < |t| ==> t[i] == PrepareRow(key, data[i], columns, render)
  {
    seq(|data|, i requires 0 <= i < |data| => PrepareRow(key, data[i], columns, render))
  }

  /** `_parse_json_data`: an empty payload yields no rows; otherwise every
      requested column must be present and unambiguous, and each record
      becomes one prepared row, in payload order. */
  function ParseJsonData(key: string, data: seq<Record>, columns: seq<string>, render: Value -> string)
    : (r: Result<Table, DataError>)
    ensures |data| == 0 ==> r == Success([])
    ensures r.Failure? <==> |data| > 0 && exists c :: c in columns && (!Present(data, c) || Ambiguous(data, c))
    ensures (r.Failure? && exists c :: c in columns && !Present(data, c)) ==>
              r.error == MissingColumns(set c | c in columns && !Present(data, c))
    ensures (r.Failure? && forall c :: c in columns ==> Present(data, c)) ==>
              r.error == AmbiguousColumns(set c | c in columns && Ambiguous(data, c))
    ensures r.Success? ==> |r.value| == |data| && Unambiguous(data, columns)
    ensures r.Success? ==> forall i :: 0 <= i < |r.value| ==> r.value[i] == PrepareRow(key, data[i], columns, render)
    ensures r.Success? ==> forall row :: row in r.value ==> Get(row, KeyColumn) == Str(key)
  {
    if |data| == 0 then Success([])
    else if MissingOf(data, columns) != {} then Failure(MissingColumns(MissingOf(data, columns)))
    else if AmbiguousOf(data, columns) != {} then Failure(AmbiguousColumns(AmbiguousOf(data, columns)))
    else
      UnambiguousWhenNoCollision(data, columns);
      Success(PrepareAll(key, data, columns, render))
  }

  /** What one record adds to the nested rows: the elements of its list in
      `column`; nothing when that value is falsy. */
  function Contribution(rec: Record, column: string): (r: Result<seq<Record>, DataError>)
    ensures column !in rec ==> r == Failure(MissingField(column))
    ensures column in rec && !Truthy(rec[column]) ==> r == Success([])
    ensures column in rec && Truthy(rec[column]) && rec[column].Items? ==> r == Success(rec[column].elems)
    ensures column in rec && Truthy(rec[column]) && !rec[column].Items? ==> r == Failure(NotAList(column))
    ensures r.Success? && |r.value| > 0 ==> column in rec && rec[column] == Items(r.value)
  {
    if column !in rec then Failure(MissingField(column))
    else if !Truthy(rec[column]) then Success([])
    else match rec[column]
      case Items(elems) => Success(elems)
      case _ => Failure(NotAList(column))
  }

  /** `r` continues `a` with `b`: the first failure wins, otherwise the
      row lists are concatenated. */
  function Then(a: Result<seq<Record>, DataError>, b: Result<seq<Record>, DataError>): Result<seq<Record>, DataError> {
    match a
    case Failure(e) => Failure(e)
    case Success(xs) =>
      match b
      case Failure(e) => Failure(e)
      case Success(ys) => Success(xs + ys)
  }

  /** The nested rows of a payload, record by record. */
  function NestedOf(data: seq<Record>, column: string): (r: Result<seq<Record>, DataError>)
    ensures r.Success? <==> forall i :: 0 <= i < |data| ==> Contribution(data[i], column).Success?
    ensures r.Failure? ==>
              exists i :: 0 <= i < |data| && r == Contribution(data[i], column)
                          && forall j :: 0 <= j < i ==> Contribution(data[j], column).Success?
    ensures r.Success? ==>
              forall x :: x in r.value ==>
                exists i :: 0 <= i < |data| && column in data[i] && data[i][column] == Items(Contribution(data[i], column).value)
                            && x in Contribution(data[i], column).value
  {
    if |data| == 0 then Success([])
    else Then(Contribution(data[0], column), NestedOf(data[1..], column))
  }

  lemma ThenAssociative(x: Result<seq<Record>, DataError>, y: Result<seq<Record>, DataError>, z: Result<seq<Record>, DataError>)
    ensures Then(x, Then(y, z)) == Then(Then(x, y), z)
  {
    if x.Success? && y.Success? && z.Success? {
      assert x.value + (y.value + z.value) == (x.value + y.value) + z.value;
    }
  }

  /** Extraction distributes over splitting the payload: the nested rows
      of `a + b` are those of `a` followed by those of `b`, and the first
      failing record decides the error. Together with the one-record case
      this is "record order, then element order". */
  lemma {:induction false} NestedOfAppend(a: seq<Record>, b: seq<Record>, column: string)
    ensures NestedOf(a + b, column) == Then(NestedOf(a, column), NestedOf(b, column))
  {
    if |a| == 0 {
      assert a + b == b;
      if NestedOf(b, column).Success? {
        assert [] + NestedOf(b, column).value == NestedOf(b, column).value;
      }
    } else {
      assert (a + b)[0] == a[0];
      assert (a + b)[1..] == a[1..] + b;
      NestedOfAppend(a[1..], b, column);
      ThenAssociative(Contribution(a[0], column), NestedOf(a[1..], column), NestedOf(b, column));
    }
  }

  /** A one-record payload contributes exactly that record's list. */
  lemma NestedOfSingle(rec: Record, column: string)
    ensures NestedOf([rec], column) == Contribution(rec, column)
  {
    assert [rec][1..] == [];
    if Contribution(rec, column).Success? {
      assert Contribution(rec, column).value + [] == Contribution(rec, column).value;
    }
  }

  /** `_parse_nested_json_data`: walks the payload once, extending the
      result with each record's list, exactly as the loop of the source. */
  method ExtractNested(data: seq<Record>, column: string) returns (r: Result<seq<Record>, DataError>)
    ensures r == NestedOf(data, column)
  {
    var rows: seq<Record> := [];
    var i := 0;
    while i < |data|
      invariant 0 <= i <= |data|
      invariant NestedOf(data[..i], column) == Success(rows)
    {
      var c := Contribution(data[i], column);
      if c.Failure? {
        assert data == data[..i] + data[i..];
        NestedOfAppend(data[..i], data[i..], column);
        assert data[i..][0] == data[i];
        return Failure(c.error);
      }
      assert data[..i + 1] == data[..i] + [data[i]];
      NestedOfAppend(data[..i], [data[i]], column);
      NestedOfSingle(data[i], column);
      rows := rows + c.value;
      i := i + 1;
    }
    assert data[..i] == data;
    r := Success(rows);
  }
}

=== FILE: properties.dfy ===
/** What truncate-and-reload guarantees, and what it does not: tenant
    isolation, window preservation, the scope of the nested delete, and
    when running a refresh twice is the same as running it once. */
module Properties {
  import opened Values
  import opened Seqs
  import opened Frames
  import opened Scopes
  import opened Refresh

  /** The school's own rows outside its Behaviors window. */
  function OwnOutsideWindow(school: School): Row -> bool {
    row => Owns(school.apiKey, row) && !Dated(school.startDate, school.endDate, row)
  }

  /** The row's link value is the IncidentID of some Incidents row, of
      any school. */
  predicate HasParent(incidents: Table, column: string, row: Row) {
    Get(row, column) != Null && exists inc :: inc in incidents && Get(inc, IncidentIdColumn) == Get(row, column)
  }

  function Orphaned(incidents: Table, column: string): Row -> bool {
    row => !HasParent(incidents, column, row)
  }

  /** No Incidents row of `key` shares an IncidentID with one of `other`. */
  predicate DisjointIncidentIds(incidents: Table, key: string, other: string) {
    forall a, b :: a in incidents && b in incidents && Owns(key, a) && Owns(other, b) ==>
      Get(a, IncidentIdColumn) != Get(b, IncidentIdColumn)
  }

  lemma {:induction false} NoneKept(s: Table, keep: Row -> bool)
    requires forall x :: x in s ==> !keep(x)
    ensures Filter(s, keep) == []
  {
    if |s| > 0 {
      NoneKept(s[1..], keep);
    }
  }

  /** Delete-then-append run twice with the same rows equals running it
      once exactly when the delete would remove every appended row. */
  lemma ReloadTwiceIff(t: Table, keep: Row -> bool, rows: Table)
    ensures Filter(Filter(t, keep) + rows, keep) + rows == Filter(t, keep) + rows
            <==> forall row :: row in rows ==> !keep(row)
  {
    var kept := Filter(t, keep);
    FilterIdempotent(t, keep);
    FilterAppend(kept, rows, keep);
    if forall row :: row in rows ==> !keep(row) {
      NoneKept(rows, keep);
      assert kept + [] == kept;
    } else {
      var row :| row in rows && keep(row);
      FilterMembers(rows, keep);
      assert row in Filter(rows, keep);
      assert |Filter(kept + rows, keep) + rows| > |kept + rows|;
    }
  }

  /** An empty payload is not an error: the refresh empties the school's
      scope, appends nothing, and records a count of 0 for the entity. */
  lemma EmptyPayloadEmptiesScope(school: School, incidents: Table, t: Table, counter: Counter,
                                 entity: string, columns: seq<string>, render: Value -> string, linkColumn: string)
    ensures var s := RefreshData(school, t, counter, [], entity, columns, render);
            && s.failure.None?
            && s.table == DeleteCurrentRecords(school, entity, t)
            && entity in s.counter && Count(s.counter, entity) == Count(counter, entity)
    ensures var s := RefreshNestedTableData(school, incidents, t, counter, [], entity, linkColumn);
            && s.failure.None?
            && s.table == DeleteCurrentNestedRecords(school, incidents, t, linkColumn)
            && entity in s.counter && Count(s.counter, entity) == Count(counter, entity)
  {
    RefreshDataTable(school, t, counter, [], entity, columns, render);
    RefreshNestedTable(school, incidents, t, counter, [], entity, linkColumn);
    assert DeleteCurrentRecords(school, entity, t) + [] == DeleteCurrentRecords(school, entity, t);
    assert DeleteCurrentNestedRecords(school, incidents, t, linkColumn) + []
        == DeleteCurrentNestedRecords(school, incidents, t, linkColumn);
  }

  /** Tenant isolation: refreshing one school, for any entity and whether
      or not the payload can be prepared, leaves every other school's rows
      exactly as they were, in order. */
  lemma RefreshIsolatesOtherSchools(school: School, t: Table, counter: Counter, data: seq<Record>,
                                    entity: string, columns: seq<string>, render: Value -> string, other: string)
    requires other != school.apiKey
    ensures Filter(RefreshData(school, t, counter, data, entity, columns, render).table, OwnedBy(other))
         == Filter(t, OwnedBy(other))
  {
    var kept := DeleteCurrentRecords(school, entity, t);
    var rows := Appended(school, data, columns, render);
    RefreshDataTable(school, t, counter, data, entity, columns, render);
    FilterPastDelete(t, Not(DeleteScope(school, entity)), OwnedBy(other));
    FilterAppend(kept, rows, OwnedBy(other));
    NoneKept(rows, OwnedBy(other));
  }

  /** Window preservation: the Behaviors delete keeps this school's rows
      dated outside `[start, end]` and another school's rows, each in
      stored order, and keeps none of this school's rows inside it. */
  lemma WindowedDeleteKeepsHistory(school: School, t: Table, other: string)
    requires other != school.apiKey
    ensures var r := DeleteCurrentRecords(school, BehaviorsEntity, t);
            && Filter(r, OwnOutsideWindow(school)) == Filter(t, OwnOutsideWindow(school))
            && Filter(r, OwnedBy(other)) == Filter(t, OwnedBy(other))
            && forall x :: x in r ==> !(Owns(school.apiKey, x) && Dated(school.startDate, school.endDate, x))
  {
    FilterPastDelete(t, Not(DeleteScope(school, BehaviorsEntity)), OwnOutsideWindow(school));
    FilterPastDelete(t, Not(DeleteScope(school, BehaviorsEntity)), OwnedBy(other));
  }

  /** Both ends of the window are inclusive: a row of this school dated
      exactly on the first or the last day is deleted. */
  lemma WindowIsInclusive(school: School, t: Table, row: Row)
    requires TextLe(school.startDate, school.endDate)
    requires Owns(school.apiKey, row)
    requires Get(row, DateColumn) == Str(school.startDate) || Get(row, DateColumn) == Str(school.endDate)
    ensures row !in DeleteCurrentRecords(school, BehaviorsEntity, t)
  {
    TextLeReflexive(school.startDate);
    TextLeReflexive(school.endDate);
  }

  /** A whole-school reload leaves exactly the prepared payload as the
      school's rows, and every other row as it was, in order. */
  lemma ReloadReplacesSchoolRows(school: School, t: Table, counter: Counter, data: seq<Record>,
                                 entity: string, columns: seq<string>, render: Value -> string)
    requires entity != BehaviorsEntity
    requires ParseJsonData(school.apiKey, data, columns, render).Success?
    ensures var s := RefreshData(school, t, counter, data, entity, columns, render);
            && Filter(s.table, OwnedBy(school.apiKey)) == ParseJsonData(school.apiKey, data, columns, render).value
            && Filter(s.table, Not(OwnedBy(school.apiKey))) == Filter(t, Not(OwnedBy(school.apiKey)))
  {
    var rows := Appended(school, data, columns, render);
    var own := OwnedBy(school.apiKey);
    var kept := Filter(t, Not(own));
    RefreshDataTable(school, t, counter, data, entity, columns, render);
    FilterAppend(kept, rows, own);
    FilterAppend(kept, rows, Not(own));
    NoneKept(kept, own);
    NoneKept(rows, Not(own));
    FilterIdempotent(t, Not(own));
    FilterKeepsAll(rows, own);
  }

  /** Truncate-and-reload is idempotent for every entity without a window:
      a second refresh with the same payload leaves the same table and
      reports the same outcome; the counter records both runs. */
  lemma RefreshTwiceIsRefreshOnce(school: School, t: Table, counter: Counter, data: seq<Record>,
                                  entity: string, columns: seq<string>, render: Value -> string)
    requires entity != BehaviorsEntity
    ensures var s1 := RefreshData(school, t, counter, data, entity, columns, render);
            var s2 := RefreshData(school, s1.table, s1.counter, data, entity, columns, render);
            && s2.table == s1.table
            && s2.failure == s1.failure
            && (s1.failure.None? ==> Count(s2.counter, entity) == Count(counter, entity) + 2 * |data|)
  {
    var own := OwnedBy(school.apiKey);
    var rows := Appended(school, data, columns, render);
    var s1 := RefreshData(school, t, counter, data, entity, columns, render);
    RefreshDataTable(school, t, counter, data, entity, columns, render);
    RefreshDataTable(school, s1.table, s1.counter, data, entity, columns, render);
    ReloadTwiceIff(t, Not(own), rows);
  }

  /** A Behaviors refresh repeated with the same payload changes nothing
      exactly when every prepared row is dated inside the window; a row
      dated outside survives the second delete and is stored twice. */
  lemma WindowedRefreshTwiceIsOnceIffInWindow(school: School, t: Table, counter: Counter, data: seq<Record>,
                                              columns: seq<string>, render: Value -> string)
    requires ParseJsonData(school.apiKey, data, columns, render).Success?
    ensures var rows := ParseJsonData(school.apiKey, data, columns, render).value;
            var s1 := RefreshData(school, t, counter, data, BehaviorsEntity, columns, render);
            var s2 := RefreshData(school, s1.table, s1.counter, data, BehaviorsEntity, columns, render);
            s2.table == s1.table <==> forall row :: row in rows ==> Dated(school.startDate, school.endDate, row)
  {
    var rows := Appended(school, data, columns, render);
    var keep := Not(DeleteScope(school, BehaviorsEntity));
    var s1 := RefreshData(school, t, counter, data, BehaviorsEntity, columns, render);
    RefreshDataTable(school, t, counter, data, BehaviorsEntity, columns, render);
    RefreshDataTable(school, s1.table, s1.counter, data, BehaviorsEntity, columns, render);
    ReloadTwiceIff(t, keep, rows);
    AppendedInWindowScope(school, data, columns, render);
  }

  /** For appended rows, which all carry the school's key, the Behaviors
      delete scope is the window alone. */
  lemma AppendedInWindowScope(school: School, data: seq<Record>, columns: seq<string>, render: Value -> string)
    ensures var rows := Appended(school, data, columns, render);
            (forall row :: row in rows ==> !Not(DeleteScope(school, BehaviorsEntity))(row))
            <==> (forall row :: row in rows ==> Dated(school.startDate, school.endDate, row))
  {
    var rows := Appended(school, data, columns, render);
    forall row | row in rows
      ensures !Not(DeleteScope(school, BehaviorsEntity))(row) <==> Dated(school.startDate, school.endDate, row)
    {
      var i := AppendedRowIsPrepared(school, data, columns, render, row);
    }
  }

  /** The nested delete keeps, in order, every row linked to no Incidents
      row at all: the join discards them before the delete sees them. */
  lemma NestedDeleteKeepsOrphans(school: School, incidents: Table, t: Table, column: string)
    ensures Filter(DeleteCurrentNestedRecords(school, incidents, t, column), Orphaned(incidents, column))
         == Filter(t, Orphaned(incidents, column))
  {
    FilterPastDelete(t, Not(LinkedTo(incidents, school.apiKey, column)), Orphaned(incidents, column));
  }

  /** The nested delete keeps, in order, the rows linked to another
      school's incidents, as long as no incident of this school carries
      the same IncidentID. */
  lemma NestedDeleteKeepsOtherSchoolsChildren(school: School, incidents: Table, t: Table, column: string, other: string)
    requires other != school.apiKey
    requires DisjointIncidentIds(incidents, school.apiKey, other)
    ensures Filter(DeleteCurrentNestedRecords(school, incidents, t, column), LinkedTo(incidents, other, column))
         == Filter(t, LinkedTo(incidents, other, column))
  {
    FilterPastDelete(t, Not(LinkedTo(incidents, school.apiKey, column)), LinkedTo(incidents, other, column));
  }

  /** After a nested refresh, the rows hanging off this school's current
      incidents are exactly the freshly extracted rows that hang off them,
      in payload order: every older child of those incidents is gone. */
  lemma NestedRowsOfOwnIncidentsAreFresh(school: School, incidents: Table, t: Table, counter: Counter,
                                         data: seq<Record>, entity: string, column: string)
    requires NestedOf(data, entity).Success?
    ensures Filter(RefreshNestedTableData(school, incidents, t, counter, data, entity, column).table,
                   LinkedTo(incidents, school.apiKey, column))
         == Filter(NestedOf(data, entity).value, LinkedTo(incidents, school.apiKey, column))
  {
    var linked := LinkedTo(incidents, school.apiKey, column);
    var kept := Filter(t, Not(linked));
    RefreshNestedTable(school, incidents, t, counter, data, entity, column);
    FilterAppend(kept, NestedOf(data, entity).value, linked);
    NoneKept(kept, linked);
  }

  /** A nested refresh repeated with the same payload against the same
      Incidents table changes nothing exactly when every extracted row is
      linked to one of this school's incidents. An extracted row whose
      parent is missing is never deleted again, and each rerun stores it
      once more. */
  lemma NestedRefreshTwiceIsOnceIffLinked(school: School, incidents: Table, t: Table, counter: Counter,
                                          data: seq<Record>, entity: string, column: string)
    requires NestedOf(data, entity).Success?
    ensures var s1 := RefreshNestedTableData(school, incidents, t, counter, data, entity, column);
            var s2 := RefreshNestedTableData(school, incidents, s1.table, s1.counter, data, entity, column);
            s2.table == s1.table <==>
              forall row :: row in NestedOf(data, entity).value ==> LinkedToOwnIncident(incidents, school.apiKey, column, row)
  {
    var rows := NestedAppended(data, entity);
    var keep := Not(LinkedTo(incidents, school.apiKey, column));
    var s1 := RefreshNestedTableData(school, incidents, t, counter, data, entity, column);
    RefreshNestedTable(school, incidents, t, counter, data, entity, column);
    RefreshNestedTable(school, incidents, s1.table, s1.counter, data, entity, column);
    ReloadTwiceIff(t, keep, rows);
  }

  /** Every row a refresh appends is one record of the payload, prepared. */
  lemma AppendedRowIsPrepared(school: School, data: seq<Record>, columns: seq<string>,
                              render: Value -> string, row: Row) returns (i: nat)
    requires row in Appended(school, data, columns, render)
    ensures i < |data| && row == PrepareRow(school.apiKey, data[i], columns, render)
  {
    var rows := ParseJsonData(school.apiKey, data, columns, render).value;
    i :| 0 <= i < |rows| && rows[i] == row;
  }

  /** A prepared row's IncidentID is its record's, or NULL. */
  lemma PreparedRowIncidentId(key: string, rec: Record, columns: seq<string>, render: Value -> string, v: Value)
    requires forall c :: c in columns ==> SingleSource(rec, c)
    requires v != Null
    requires forall k :: k in rec && FlatName(k) == IncidentIdColumn ==> rec[k] != v
    ensures Get(PrepareRow(key, rec, columns, render), IncidentIdColumn) != v
  {
    var row := PrepareRow(key, rec, columns, render);
    if IncidentIdColumn in columns {
      assert row[IncidentIdColumn] == Cell(rec, IncidentIdColumn);
    } else {
      assert IncidentIdColumn !in row;
    }
  }

  /** An owned row of a table reloaded from `data` is a prepared record,
      so its IncidentID is one the payload carries, or NULL. */
  lemma PreparedIncidentIds(school: School, data: seq<Record>, columns: seq<string>,
                            render: Value -> string, kept: Table, inc: Row, v: Value)
    requires v != Null
    requires forall x :: x in kept ==> !Owns(school.apiKey, x)
    requires inc in kept + Appended(school, data, columns, render) && Owns(school.apiKey, inc)
    requires forall i, k :: 0 <= i < |data| && k in data[i] && FlatName(k) == IncidentIdColumn ==> data[i][k] != v
    ensures Get(inc, IncidentIdColumn) != v
  {
    assert inc !in kept;
    var i := AppendedRowIsPrepared(school, data, columns, render, inc);
    PreparedRowIncidentId(school.apiKey, data[i], columns, render, v);
  }

  /** Reloading Incidents before their nested tables does not clean up the
      children of an incident the source no longer reports: once the
      Incidents reload has dropped it, no Incidents row of this school
      carries its IncidentID, so the nested delete's join misses those
      children and they stay. */
  lemma StaleChildrenSurviveIncidentReload(school: School, incidents: Table, counter: Counter,
                                           incidentData: seq<Record>, columns: seq<string>,
                                           render: Value -> string, t: Table, column: string, x: Row)
    requires x in t && LinkedToOwnIncident(incidents, school.apiKey, column, x)
    requires forall i, k :: 0 <= i < |incidentData| && k in incidentData[i] && FlatName(k) == IncidentIdColumn
                            ==> incidentData[i][k] != Get(x, column)
    ensures var reloaded := RefreshData(school, incidents, counter, incidentData, "Incidents", columns, render).table;
            x in DeleteCurrentNestedRecords(school, reloaded, t, column)
  {
    var key := school.apiKey;
    var s1 := RefreshData(school, incidents, counter, incidentData, "Incidents", columns, render);
    var kept := DeleteCurrentRecords(school, "Incidents", incidents);
    RefreshDataTable(school, incidents, counter, incidentData, "Incidents", columns, render);
    forall inc | inc in s1.table && Owns(key, inc)
      ensures Get(inc, IncidentIdColumn) != Get(x, column)
    {
      PreparedIncidentIds(school, incidentData, columns, render, kept, inc, Get(x, column));
    }
    FilterMembers(t, Not(LinkedTo(s1.table, key, column)));
  }
}

=== FILE: refresh.dfy ===
/** Truncate-and-reload of one table for one school: delete the school's
    current rows in scope, prepare the fetched rows, append them, and add
    the number appended to the run's counter. */
module Refresh {
  import opened Results
  import opened Values
  import opened Frames
  import opened Scopes

  /** Rows written per entity during a run (`collections.Counter`). */
  type Counter = map<string, int>

  /** A Counter's entry; an absent entity counts 0. */
  function Count(c: Counter, entity: string): int {
    if entity in c then c[entity] else 0
  }

  /** `counter.update({entity: n})`: additive, and it creates the entry
      even when `n` is 0. */
  function CounterUpdate(c: Counter, entity: string, n: nat): (r: Counter)
    ensures r.Keys == c.Keys + {entity}
    ensures Count(r, entity) == Count(c, entity) + n
    ensures forall e :: e != entity ==> Count(r, e) == Count(c, e)
  {
    c[entity := Count(c, entity) + n]
  }

  /** `_insert_df_into_table` with `_count_and_log`: append the rows
      after the stored ones and report how many were appended. */
  function InsertRows(t: Table, rows: Table): (r: (Table, nat))
    ensures |r.0| == |t| + |rows|
    ensures r.0[..|t|] == t && r.0[|t|..] == rows
    ensures r.1 == |rows|
  {
    (t + rows, |rows|)
  }

  /** The state after one refresh step: the table, the counter, and the
      error that stopped the step, if any. */
  datatype Step = Step(table: Table, counter: Counter, failure: Option<DataError>)

  /** `refresh_data`. The delete runs first, so a payload that cannot be
      prepared leaves the school's scope emptied and the counter as it
      was; otherwise the prepared rows follow the surviving ones and the
      counter grows by the number of records fetched, whatever the number
      deleted. */
  function RefreshData(school: School, t: Table, counter: Counter, data: seq<Record>,
                       entity: string, columns: seq<string>, render: Value -> string): (s: Step)
    ensures var kept := DeleteCurrentRecords(school, entity, t);
            && |kept| <= |s.table|
            && s.table[..|kept|] == kept
            && (s.failure.Some? ==> s.table == kept && s.counter == counter)
            && (s.failure.None? ==>
                  && |s.table| == |kept| + |data|
                  && Count(s.counter, entity) == Count(counter, entity) + |data|
                  && (forall e :: e != entity ==> Count(s.counter, e) == Count(counter, e))
                  && forall row :: row in s.table[|kept|..] ==> Owns(school.apiKey, row))
    ensures s.failure.None? <==> ParseJsonData(school.apiKey, data, columns, render).Success?
    ensures var kept := DeleteCurrentRecords(school, entity, t);
            s.failure.None? ==> s.table == kept + ParseJsonData(school.apiKey, data, columns, render).value
    ensures |data| == 0 ==> s.failure.None?
  {
    var kept := DeleteCurrentRecords(school, entity, t);
    match ParseJsonData(school.apiKey, data, columns, render)
    case Failure(e) => Step(kept, counter, Some(e))
    case Success(rows) =>
      var (table, count) := InsertRows(kept, rows);
      Step(table, CounterUpdate(counter, entity, count), None)
  }

  /** `refresh_nested_table_data`: the nested delete against the current
      Incidents table, then the rows embedded under `entity` in the
      payload, appended, and counted. */
  function RefreshNestedTableData(school: School, incidents: Table, t: Table, counter: Counter,
                                  data: seq<Record>, entity: string, linkColumn: string): (s: Step)
    ensures var kept := DeleteCurrentNestedRecords(school, incidents, t, linkColumn);
            && |kept| <= |s.table|
            && s.table[..|kept|] == kept
            && (s.failure.Some? ==> s.table == kept && s.counter == counter)
            && (s.failure.None? ==>
                  && Count(s.counter, entity) == Count(counter, entity) + (|s.table| - |kept|)
                  && (forall e :: e != entity ==> Count(s.counter, e) == Count(counter, e)))
    ensures s.failure.None? <==> forall i :: 0 <= i < |data| ==> Contribution(data[i], entity).Success?
    ensures var kept := DeleteCurrentNestedRecords(school, incidents, t, linkColumn);
            s.failure.None? ==> NestedOf(data, entity).Success? && s.table == kept + NestedOf(data, entity).value
    ensures |data| == 0 ==> s.failure.None? && Count(s.counter, entity) == Count(counter, entity)
  {
    var kept := DeleteCurrentNestedRecords(school, incidents, t, linkColumn);
    match NestedOf(data, entity)
    case Failure(e) => Step(kept, counter, Some(e))
    case Success(rows) =>
      var (table, count) := InsertRows(kept, rows);
      Step(table, CounterUpdate(counter, entity, count), None)
  }

  /** The rows a refresh appends: the prepared payload, or nothing when it
      cannot be prepared. */
  function Appended(school: School, data: seq<Record>, columns: seq<string>, render: Value -> string): Table {
    var parsed := ParseJsonData(school.apiKey, data, columns, render);
    if parsed.Success? then parsed.value else []
  }

  lemma RefreshDataTable(school: School, t: Table, counter: Counter, data: seq<Record>,
                         entity: string, columns: seq<string>, render: Value -> string)
    ensures RefreshData(school, t, counter, data, entity, columns, render).table
         == DeleteCurrentRecords(school, entity, t) + Appended(school, data, columns, render)
  {
  }

  /** The rows a nested refresh appends. */
  function NestedAppended(data: seq<Record>, entity: string): Table {
    var rows := NestedOf(data, entity);
    if rows.Success? then rows.value else []
  }

  lemma RefreshNestedTable(school: School, incidents: Table, t: Table, counter: Counter,
                           data: seq<Record>, entity: string, linkColumn: string)
    ensures RefreshNestedTableData(school, incidents, t, counter, data, entity, linkColumn).table
         == DeleteCurrentNestedRecords(school, incidents, t, linkColumn) + NestedAppended(data, entity)
  {
  }
}

=== FILE: results.dfy ===
/** Failure-carrying wrappers shared by the model: an optional value and a
    success-or-error result, the shapes the source's `None` parameters and
    raised exceptions take here. */
module Results {

  datatype Option<+T> = None | Some(value: T)

  datatype Result<+R, +E> = Success(value: R) | Failure(error: E)
}

=== FILE: scopes.dfy ===
/** What one school's refresh asks the API for, and which stored rows it
    deletes before reloading: the whole school, a date window of it, or
    the nested rows hanging off its incidents. */
module Scopes {
  import opened Results
  import opened Values
  import opened Seqs
  import Frames

  /** One school's refresh context: its API key and the Behaviors window. */
  datatype School = School(apiKey: string, startDate: string, endDate: string)

  const BehaviorEndpoint := "get-behavior-data"
  const BehaviorsEntity := "Behaviors"
  const DateColumn := "BehaviorDate"
  const IncidentIdColumn := "IncidentID"

  /** The `sdt`/`edt` query parameters of a windowed fetch. */
  datatype DateParams = DateParams(sdt: string, edt: string)

  /** The parameters `get_data_from_api` sends: a date window for the
      behavior endpoint, none for every other endpoint. */
  function RequestParams(school: School, endpoint: string): (p: Option<DateParams>)
    ensures p.Some? <==> endpoint == BehaviorEndpoint
    ensures p.Some? ==> p.value.sdt == school.startDate && p.value.edt == school.endDate
  {
    if endpoint == BehaviorEndpoint then Some(DateParams(school.startDate, school.endDate)) else None
  }

  /** The row carries this school's key (a NULL key matches no school). */
  predicate Owns(key: string, row: Row) {
    Get(row, Frames.KeyColumn) == Str(key)
  }

  /** The row's BehaviorDate lies in `[start, end]`, both ends included; a
      NULL or non-text date lies in no window. */
  predicate Dated(start: string, end: string, row: Row) {
    var d := Get(row, DateColumn);
    d.Str? && TextLe(start, d.s) && TextLe(d.s, end)
  }

  function OwnedBy(key: string): Row -> bool {
    row => Owns(key, row)
  }

  function InWindow(start: string, end: string): Row -> bool {
    row => Dated(start, end, row)
  }

  /** The `WHERE` clause of `_delete_current_records`. */
  function DeleteScope(school: School, entity: string): Row -> bool {
    if entity != BehaviorsEntity then OwnedBy(school.apiKey)
    else Both(OwnedBy(school.apiKey), InWindow(school.startDate, school.endDate))
  }

  /** `_delete_current_records`: every entity but Behaviors loses exactly
      this school's rows; Behaviors loses only this school's rows dated in
      the window. Every other row stays, as often as it was stored. */
  function DeleteCurrentRecords(school: School, entity: string, t: Table): (r: Table)
    ensures entity != BehaviorsEntity ==>
              forall x :: multiset(r)[x] == if Owns(school.apiKey, x) then 0 else multiset(t)[x]
    ensures entity == BehaviorsEntity ==>
              forall x :: multiset(r)[x] ==
                if Owns(school.apiKey, x) && Dated(school.startDate, school.endDate, x) then 0 else multiset(t)[x]
  {
    FilterCounts(t, Not(DeleteScope(school, entity)));
    Filter(t, Not(DeleteScope(school, entity)))
  }

  /** The join of the nested delete: the row's link value is the
      IncidentID of some Incidents row carrying this school's key. */
  predicate LinkedToOwnIncident(incidents: Table, key: string, column: string, row: Row) {
    Get(row, column) != Null
    && exists inc :: inc in incidents && Owns(key, inc) && Get(inc, IncidentIdColumn) == Get(row, column)
  }

  function LinkedTo(incidents: Table, key: string, column: string): Row -> bool {
    row => LinkedToOwnIncident(incidents, key, column, row)
  }

  /** The `SELECT DISTINCT` of `_delete_current_nested_records`: each link
      value of the nested table that joins to one of this school's
      incidents, once, in order of first occurrence. */
  function LinkedIds(t: Table, incidents: Table, key: string, column: string): (ids: seq<Value>)
    ensures forall v :: v in ids <==>
              exists x :: x in t && LinkedToOwnIncident(incidents, key, column, x) && Get(x, column) == v
    ensures forall i, j :: 0 <= i < j < |ids| ==> ids[i] != ids[j]
  {
    if |t| == 0 then []
    else
      var front := t[..|t| - 1];
      var x := t[|t| - 1];
      assert t == front + [x];
      var ids := LinkedIds(front, incidents, key, column);
      if LinkedToOwnIncident(incidents, key, column, x) && Get(x, column) !in ids then ids + [Get(x, column)]
      else ids
  }

  function LinkIsNot(column: string, v: Value): Row -> bool {
    row => Get(row, column) != v
  }

  function LinkNotIn(column: string, ids: seq<Value>): Row -> bool {
    row => Get(row, column) !in ids
  }

  /** The delete loop: one `DELETE ... WHERE column = id` per id. */
  function DeleteEach(t: Table, column: string, ids: seq<Value>): Table
    decreases |ids|
  {
    if |ids| == 0 then t
    else DeleteEach(Filter(t, LinkIsNot(column, ids[0])), column, ids[1..])
  }

  /** One delete per id removes exactly the rows whose link value is
      among the ids. */
  lemma {:induction false} DeleteEachFilters(t: Table, column: string, ids: seq<Value>)
    ensures DeleteEach(t, column, ids) == Filter(t, LinkNotIn(column, ids))
    decreases |ids|
  {
    if |ids| > 0 {
      var first := Filter(t, LinkIsNot(column, ids[0]));
      assert DeleteEach(t, column, ids) == DeleteEach(first, column, ids[1..]);
      DeleteEachFilters(first, column, ids[1..]);
      FilterFilter(t, LinkIsNot(column, ids[0]), LinkNotIn(column, ids[1..]));
      forall x: Row
        ensures Both(LinkIsNot(column, ids[0]), LinkNotIn(column, ids[1..]))(x) == LinkNotIn(column, ids)(x)
      {
        LinkNotInCons(column, ids, Get(x, column));
      }
      FilterCongruent(t, Both(LinkIsNot(column, ids[0]), LinkNotIn(column, ids[1..])), LinkNotIn(column, ids));
    } else {
      FilterKeepsAll(t, LinkNotIn(column, ids));
    }
  }

  lemma LinkNotInCons(column: string, ids: seq<Value>, v: Value)
    requires |ids| > 0
    ensures v !in ids <==> v != ids[0] && v !in ids[1..]
  {
    assert ids == [ids[0]] + ids[1..];
  }

  /** `_delete_current_nested_records`: the distinct joined ids, then one
      delete per id. The effect is a join filter: a nested row goes
      exactly when its link value is the IncidentID of one of this
      school's Incidents rows. Rows linked to no Incidents row at all
      survive, because the `WHERE` on the joined key discards them. */
  function DeleteCurrentNestedRecords(school: School, incidents: Table, t: Table, column: string): (r: Table)
    ensures r == Filter(t, Not(LinkedTo(incidents, school.apiKey, column)))
    ensures forall x :: multiset(r)[x] ==
              if LinkedToOwnIncident(incidents, school.apiKey, column, x) then 0 else multiset(t)[x]
  {
    var ids := LinkedIds(t, incidents, school.apiKey, column);
    DeleteEachFilters(t, column, ids);
    assert forall x :: x in t ==> LinkNotIn(column, ids)(x) == Not(LinkedTo(incidents, school.apiKey, column))(x);
    FilterCongruent(t, LinkNotIn(column, ids), Not(LinkedTo(incidents, school.apiKey, column)));
    FilterCounts(t, Not(LinkedTo(incidents, school.apiKey, column)));
    DeleteEach(t, column, ids)
  }
}

=== FILE: seqs.dfy ===
/** Order-preserving filtering of sequences, the shape every warehouse
    `DELETE ... WHERE` takes in this model: the rows that survive are the
    rows the predicate keeps, in their stored order. */
module Seqs {

  function Not<T>(p: T -> bool): T -> bool {
    x => !p(x)
  }

  function Both<T>(p: T -> bool, q: T -> bool): T -> bool {
    x => p(x) && q(x)
  }

  /** The elements of `s` that satisfy `keep`, in order. */
  function Filter<T(==,!new)>(s: seq<T>, keep: T -> bool): (r: seq<T>)
    ensures |r| <= |s|
  {
    if |s| == 0 then []
    else (if keep(s[0]) then [s[0]] else []) + Filter(s[1..], keep)
  }

  /** An element survives the filter exactly when it was there and the
      predicate keeps it. */
  lemma {:induction false} FilterMembers<T(!new)>(s: seq<T>, keep: T -> bool)
    ensures forall x :: x in Filter(s, keep) <==> x in s && keep(x)
  {
    if |s| > 0 {
      FilterMembers(s[1..], keep);
      assert s == [s[0]] + s[1..];
    }
  }

  /** A kept element survives as often as it was stored; any other element
      not at all. */
  lemma {:induction false} FilterCounts<T(!new)>(s: seq<T>, keep: T -> bool)
    ensures forall x :: multiset(Filter(s, keep))[x] == if keep(x) then multiset(s)[x] else 0
  {
    if |s| > 0 {
      FilterCounts(s[1..], keep);
      assert s == [s[0]] + s[1..];
    }
  }

  lemma {:induction false} FilterAppend<T(!new)>(a: seq<T>, b: seq<T>, keep: T -> bool)
    ensures Filter(a + b, keep) == Filter(a, keep) + Filter(b, keep)
  {
    if |a| > 0 {
      assert (a + b)[1..] == a[1..] + b;
      FilterAppend(a[1..], b, keep);
    } else {
      assert a + b == b;
    }
  }

  lemma {:induction false} FilterFilter<T(!new)>(s: seq<T>, p: T -> bool, q: T -> bool)
    ensures Filter(Filter(s, p), q) == Filter(s, Both(p, q))
  {
    if |s| > 0 {
      var head := if p(s[0]) then [s[0]] else [];
      FilterAppend(head, Filter(s[1..], p), q);
      FilterFilter(s[1..], p, q);
      assert Filter(head, q) == if Both(p, q)(s[0]) then [s[0]] else [] by {
        if p(s[0]) {
          assert head[1..] == [];
        }
      }
    }
  }

  /** Two predicates that agree on the elements of `s` filter it alike. */
  lemma {:induction false} FilterCongruent<T(!new)>(s: seq<T>, p: T -> bool, q: T -> bool)
    requires forall x :: x in s ==> p(x) == q(x)
    ensures Filter(s, p) == Filter(s, q)
  {
    if |s| > 0 {
      FilterCongruent(s[1..], p, q);
    }
  }

  lemma {:induction false} FilterKeepsAll<T(!new)>(s: seq<T>, keep: T -> bool)
    requires forall x :: x in s ==> keep(x)
    ensures Filter(s, keep) == s
  {
    if |s| > 0 {
      FilterKeepsAll(s[1..], keep);
      assert s == [s[0]] + s[1..];
    }
  }

  /** Filtering by `q` after a delete that never removes a `q` element
      gives what filtering the original by `q` gives. */
  lemma FilterPastDelete<T(!new)>(s: seq<T>, keep: T -> bool, q: T -> bool)
    requires forall x :: x in s && q(x) ==> keep(x)
    ensures Filter(Filter(s, keep), q) == Filter(s, q)
  {
    FilterFilter(s, keep, q);
    FilterCongruent(s, Both(keep, q), q);
  }

  /** Filtering twice by the same predicate is filtering once. */
  lemma FilterIdempotent<T(!new)>(s: seq<T>, keep: T -> bool)
    ensures Filter(Filter(s, keep), keep) == Filter(s, keep)
  {
    FilterMembers(s, keep);
    FilterKeepsAll(Filter(s, keep), keep);
  }
}

=== FILE: values.dfy ===
/** Cell values, records and tables.

    A fetched JSON record and a stored warehouse row are both maps from a
    column name to a value; a key that is absent reads as SQL NULL. The only
    structured value is a list of records, which is how Incidents carry their
    embedded Actions and Penalties. */
module Values {

  datatype Value =
    | Null
    | Bool(b: bool)
    | Num(n: int)
    | Str(s: string)
    | Items(elems: seq<map<string, Value>>)

  /** A record of the fetched payload, after JSON flattening. */
  type Record = map<string, Value>

  /** A row of a warehouse table. */
  type Row = map<string, Value>

  /** A warehouse table, in storage order. */
  type Table = seq<Row>

  /** The value a row holds in a column; a missing column reads as NULL. */
  function Get(row: Row, column: string): (v: Value)
    ensures column !in row ==> v == Null
    ensures column in row ==> v == row[column]
  {
    if column in row then row[column] else Null
  }

  /** Python truthiness of a JSON value: null, false, 0, "" and [] are falsy. */
  predicate Truthy(v: Value) {
    match v
    case Null => false
    case Bool(b) => b
    case Num(n) => n != 0
    case Str(s) => |s| > 0
    case Items(e) => |e| > 0
  }

  /** Lexicographic order on strings, the order in which ISO `YYYY-MM-DD`
      dates compare as text. */
  predicate TextLe(a: string, b: string)
    decreases |a|
  {
    if |a| == 0 then true
    else if |b| == 0 then false
    else if a[0] != b[0] then a[0] < b[0]
    else TextLe(a[1..], b[1..])
  }

  lemma {:induction false} TextLeReflexive(a: string)
    ensures TextLe(a, a)
    decreases |a|
  {
    if |a| > 0 {
      TextLeReflexive(a[1..]);
    }
  }

  /** The column name pandas produces after replacing every `.` of a
      flattened JSON key by `_`. */
  function FlatName(k: string): (r: string)
    ensures |r| == |k|
    ensures '.' !in r
    ensures forall i :: 0 <= i < |k| && k[i] == '.' ==> r[i] == '_'
    ensures forall i :: 0 <= i < |k| && k[i] != '.' ==> r[i] == k[i]
  {
    seq(|k|, i requires 0 <= i < |k| => if k[i] == '.' then '_' else k[i])
  }
}
